=== FILE: README.md ===
# ashuffle queue refill, modelled in Dafny

ashuffle keeps an MPD play queue topped up with random picks from a shuffle
chain. A pick is a group: one song, or a whole album when grouping is on.
This project models the decision core of `src/ashuffle.cc` and the
supporting types of `src/mpd.h`:

- **Refill** (`refill.dfy`): `TryFirst` and `TryEnqueue` as pure functions.
  They map a status snapshot, the `queue_buffer` option and the chain's
  upcoming picks to the commands sent to MPD (`Add(uri)`, `PlayAt(n)`,
  `Pause`). The chain is an oracle: a sequence of non-empty groups, consumed
  left to right. C++ `unsigned` wrap-around and `static_cast<int>` are
  written out (`cint.dfy`).
- **Refill laws** (`refill_laws.dfy`): what the refill promises. The laws are
  stated against the snapshot and against `Mpd.ExecAll`, a reference reading
  of the command trace as queue and playback effects.
- **Idle loop** (`idle_loop.dfy`): one dispatch of `Loop` per idle wakeup,
  the start-up round, and runs of several iterations that carry the
  `active` flag. Exiting on a database update is an `Exit` outcome. A reload
  (`Clear` then `Load`) and the suspend sleep are recorded, not performed.
- **Idle events** (`idle_events.dfy`): `IdleEventSet` as a 32-bit bit set
  over eleven of libmpdclient's `mpd_idle` flags.
- **MPD interface** (`mpd.dfy`): the `Status` snapshot, the command trace, and
  the vector form of `MPD::Add`.
- **Host** (`host.dfy`): the `MPDHost` split of `password@host`.
- **Chain report** (`chain_report.dfy`): the message choice of
  `PrintChainLength`.

In `Loop`, after a suspend sleep, `active` becomes "the queue is still
empty" (`src/ashuffle.cc:195`). So refilling resumes when the queue stayed
empty and is suspended when someone else filled it.

## Model

| member | source | states |
|---|---|---|
| CInt.ToUnsigned | src/ashuffle.cc:57-61 | unsigned arithmetic keeps an in-range result and adds 2^32 to a negative one in (-2^32, 0) |
| CInt.ToSigned | src/ashuffle.cc:81-82 | `static_cast<int>` of an unsigned gives a value in int range that converts back to the same unsigned, equal to it below 2^31 |
| Shuffle.UrisAtLeastGroups | src/ashuffle.cc:280-281 | a chain has at least as many URIs as groups, with equality exactly when every group has one song |
| Mpd.AddAll | src/mpd.h:142-148 | adding a URI vector issues one `Add` per URI, in order, and nothing else |
| Mpd.AddedAddAll | src/mpd.h:142-148 | reading the added URIs back from the expanded trace gives the vector |
| Mpd.ExecAddAll | src/mpd.h:139-148 | executing the expanded adds appends exactly the vector to the queue and changes nothing else |
| IdleEvents.FlagsDistinct | src/mpd.h:87-90 | every idle event flag is a single bit inside the known mask, and two flags share a bit only for the same event |
| IdleEvents.Empty | src/mpd.h:76 | the default set has no member |
| IdleEvents.Add | src/mpd.h:86-87 | after adding an event it is a member, every earlier member stays, and no other event becomes a member |
| IdleEvents.Enum | src/mpd.h:92-93 | the returned pattern, read back as a set, has exactly the set's members; for a valid set it holds no unknown bit and is zero exactly when the set has no member |
| IdleEvents.ZeroIffNoMembers | src/mpd.h:75-76 | a valid set's `events` is zero exactly when no event is a member |
| IdleEvents.EnumFromEvents | src/mpd.h:78-93 | the bit pattern `Enum` returns for a set built from events has an event as a member exactly when that event was passed in, and no bit outside the known flags |
| IdleEvents.FromEvents | src/mpd.h:78-84 | the variadic constructor's set holds exactly the events passed in |
| IdleEvents.AddIdempotent | src/mpd.h:87 | adding the same event twice equals adding it once |
| IdleEvents.AddCommutes | src/mpd.h:87 | the order of additions does not matter |
| IdleEvents.MembersDetermineBits | src/mpd.h:92-93 | two valid sets have the same `Enum` bit pattern exactly when they have the same members |
| IdleEvents.SameEventsSameSet | src/mpd.h:78-84 | constructor calls naming the same events, in any order or repetition, build equal sets |
| Refill.Remaining | src/ashuffle.cc:57-62 | with no current song the count is 0; with a position inside the queue it is length − (position + 1); at or past the end it wraps by 2^32 |
| Refill.Needed | src/ashuffle.cc:81-88 | with `queue_buffer` below 2^31, for a consistent snapshot due a refill, `needed` = buffer − remaining, plus 1 when there is no current song; it is positive whenever the buffer is positive and below 2^31 |
| Refill.Fill | src/ashuffle.cc:89-93 | the `needed` loop adds whole picks until at least `needed` URIs went in, stops at the first pick that reaches it, uses at most `needed` picks, and sends exactly their adds |
| Refill.AddPicks | src/ashuffle.cc:64-97 | no picks when no refill is due; exactly one pick with a zero buffer; otherwise picks until `needed` is met and not one more |
| Refill.TryFirst | src/ashuffle.cc:37-48 | a playing player gets no command and no pick; otherwise exactly one pick, whose `Add`s come first and add exactly its URIs, and one final `PlayAt` of the old queue length |
| Refill.TryEnqueue | src/ashuffle.cc:50-111 | the trace is the adds of the consumed picks, in order, followed by the restart commands; the added URIs are exactly those picks' URIs; no pick is taken when no refill is due, exactly one with a zero buffer, and otherwise the fewest picks whose URIs reach `needed` |
| RefillLaws.ShouldAddMeaning | src/ashuffle.cc:64-76 | for a consistent snapshot, a refill is due exactly when there is no current song or fewer than `queue_buffer` songs follow it |
| RefillLaws.WrappedRemainingRefillsOnlyEmptyQueue | src/ashuffle.cc:57-76 | with `queue_buffer` below 2^31, a position at or past the queue end wraps the remaining count above 2^31, so a refill is then due only for an empty queue |
| RefillLaws.NoRefillNoCommands | src/ashuffle.cc:79-110 | when no refill is due, no `Add`, `PlayAt` or `Pause` is sent |
| RefillLaws.BufferRefilled | src/ashuffle.cc:78-97 | with `queue_buffer` below 2^31, after every `TryEnqueue` on a consistent snapshot, at least `queue_buffer` songs follow the song that then plays |
| RefillLaws.OvershootBelowLastPick | src/ashuffle.cc:89-93 | with a non-zero `queue_buffer` below 2^31, the loop takes at least one pick and overshoots `needed` by less than the size of its last pick |
| RefillLaws.RestartCommands | src/ashuffle.cc:99-110 | `PlayAt(old queue length)` is sent exactly when a refill is due with no current song or an empty queue; `Pause` is sent exactly when, in addition, single mode is on; no other `PlayAt` is sent |
| RefillLaws.RestartPlaysFirstPick | src/ashuffle.cc:99-110 | with `queue_buffer` below 2^31, a restarting round appends the picks, plays the first added URI at the old queue length, and is paused exactly in single mode |
| RefillLaws.NoRestartKeepsPlayback | src/ashuffle.cc:99-110 | a round that does not restart only appends; position and play state are untouched |
| RefillLaws.TryFirstPlaysPick | src/ashuffle.cc:37-48 | on a stopped player, one pick is appended and its first URI, at the old queue length, plays |
| RefillLaws.ExampleTopUp | src/ashuffle.cc:50-111 | buffer 10, queue 12, position 3: at least two URIs are added and only `Add` commands are sent |
| RefillLaws.OversizedBufferAddsNothing | src/ashuffle.cc:78-110 | with `queue_buffer` of 2^31 or more and fewer than 2^31 songs remaining, the cast makes `needed` non-positive: no pick is added and only the restart commands are sent |
| RefillLaws.ExampleOversizedBuffer | src/ashuffle.cc:78-110 | no current song, queue length 5, buffer 2^31: the only command is `PlayAt(5)`, a slot nothing was added to |
| RefillLaws.ExampleEmptyQueue | src/ashuffle.cc:50-111 | empty queue, no position, buffer 0: exactly one pick is added and played from 0, then paused in single mode |
| IdleLoop.Reloader | src/ashuffle.cc:140-148 | a loader is returned exactly when no input file was given |
| IdleLoop.Subscribed | src/ashuffle.cc:155-157 | the loop waits for exactly the database, queue and player events |
| IdleLoop.LoopStep | src/ashuffle.cc:170-202 | exit exactly on a database event with exit-on-update; reload exactly on a database event without an input file, sending nothing; the database branch wins over queue/player events; the suspend sleep happens exactly on a queue/player wakeup outside the reload branch with a timeout and an empty queue, and sets `active` to "still empty"; otherwise `active` carries over; when inactive nothing is sent; a queue/player event on an active loop outside the database branch runs `TryEnqueue` |
| IdleLoop.Start | src/ashuffle.cc:159-164 | without play-on-startup nothing is sent; with it, the commands are `TryFirst`'s followed by those of `TryEnqueue` on the picks `TryFirst` left, so `TryFirst`'s `PlayAt` comes right after the first pick's adds; the adds are exactly the consumed picks |
| IdleLoop.Iterate | src/ashuffle.cc:166-203 | no wakeup sends nothing; otherwise the commands start with those of the first wakeup's dispatch; the adds are exactly the consumed picks in order; the run exits exactly when exit-on-update is set and some wakeup reports a database change; without a suspend timeout `active` never changes |
| IdleLoop.IterateAppend | src/ashuffle.cc:170-203 | the loop over two batches of wakeups in a row is the loop over the first batch and then, unless it exited, over the second, starting from the `active` flag and the picks the first batch left; the commands are the two traces concatenated |
| IdleLoop.SuspendedStaysSilent | src/ashuffle.cc:188-200 | a suspended loop sends nothing and stays suspended, unless it exits, for as long as no wakeup finds the queue empty before the sleep |
| IdleLoop.Session | src/ashuffle.cc:153-204 | the commands are the start-up round's followed by those of the iterations, which start active on the picks the start-up round left; the adds are exactly the consumed picks; the session exits exactly when exit-on-update is set and a database change arrives; without a suspend timeout it stays active |
| Host.FindAt | src/ashuffle.cc:130 | finds the first '@', or reports that there is none |
| Host.Parse | src/ashuffle.cc:129-137 | with an '@', the password is the text before the first '@' and the host the text after it; without one, the host is the whole input and there is no password |
| Host.RenderParse | src/ashuffle.cc:129-137 | joining the parsed password and host with '@' gives back the input |
| Host.ParseRender | src/ashuffle.cc:129-137 | parsing a joined value gives it back exactly when its password, or its host when it has no password, holds no '@' |
| ChainReport.ReportChain | src/ashuffle.cc:274-289 | the empty message exactly for an empty chain; the plain message exactly when every group is one song, with the group count; otherwise the grouped message with groups < songs |
| ChainReport.DecimalValue | src/ashuffle.cc:282-287 | the printed count reads back as the number |
| ChainReport.MessagesDiffer | src/ashuffle.cc:274-289 | the three messages are distinct lines |

## Left out

- `Connect`, `PromptPassword` and `kRequiredCommands`: environment variables, `atoi`, dialling, password prompts and `Die` are I/O.
- The act of printing to `std::cout`/`std::cerr`, and the "Database updated, exiting." line, are not modelled; only the text `PrintChainLength` chooses is. `std::exit(0)` becomes the `Exit` outcome. The suspend sleep is the `slept` flag.
- The test delegate's `until_f` is not modelled: a run consumes a finite sequence of wakeups.
- `ShuffleChain` (its window and random choice) and `MPDLoader::Load` are not part of this model. `shuffle.h` and `load.h` are not part of it. A pick is the next group of a given sequence, and a reload is an opaque step.
- Refill.TryEnqueue: the chain never runs dry, but the finite oracle does. So callers must supply at least `PicksBound` picks. This is the most the `needed` loop can take, because every pick is non-empty.
- `Options::Parse` and `t/args_test.cc` are not part of this model. Only the options the loop reads are modelled. `queue_buffer` is taken as `unsigned`, as the tests compare it with `0U`.
- The virtual `Song`, `SongReader`, `TagParser`, `Dialer` and `MPD` interfaces are not modelled. `Mpd.Server` only reads a trace; an out-of-range `PlayAt` error is not modelled.
- `Mpd.Status`: positions are non-negative and below `INT_MAX`. At `INT_MAX`, `position + 1` would overflow `int`.
- Refill.Needed: the `int` arithmetic is computed exactly. The C++ `int` overflow, which is undefined, is not modelled. It happens whenever the exact value leaves the `int` range: with a large `queue_buffer` and a wrapped remaining count, or with `queue_buffer` = 2^31 − 1 and no current song, where the `+ 1` overflows.
- Refill.Needed, RefillLaws.WrappedRemainingRefillsOnlyEmptyQueue, RefillLaws.BufferRefilled, RefillLaws.OvershootBelowLastPick, RefillLaws.RestartPlaysFirstPick: stated only for `queue_buffer` below 2^31. For a larger buffer the `int` cast makes `needed` non-positive, so the source enqueues nothing and may `PlayAt` a slot that holds no song; RefillLaws.OversizedBufferAddsNothing states that case. A larger buffer can also make a refill due although the queue is not empty and the position wrapped, for example position 2^31 − 2 in a queue of one song with buffer 2^31 + 3.
- `IdleEvents.IdleEvent`: eleven of libmpdclient's `mpd_idle` flags, with its values; `PARTITION` (0x800), `NEIGHBOR` (0x1000) and `MOUNT` (0x2000) are not modelled, since the loop never subscribes to them, and `mpd/idle.h` is not part of this model. `MPD_IDLE_PLAYLIST` is the same flag as `MPD_IDLE_QUEUE`. Raw integers that are no named event are not modelled.

=== FILE: chain_report.dfy ===
/**
  `PrintChainLength` of src/ashuffle.cc: the line reporting the size of the
  chain, which names groups and songs separately when grouping is on.
 */
module ChainReport {
  import opened Shuffle

  /** The three reports. */
  datatype Report =
    | PoolEmpty
    | Grouped(groups: nat, songs: nat)
    | Ungrouped(songs: nat)

  /** The choice made from `Len()` and `LenURIs()`. */
  function Choose(len: nat, lenUris: nat): Report
  {
    if len == 0 then PoolEmpty
    else if len != lenUris then Grouped(len, lenUris)
    else Ungrouped(len)
  }

  /** The report for a chain holding `chain`: `Len()` counts groups and
      `LenURIs()` their URIs. Grouping is reported exactly when some group
      has more than one song. */
  function ReportChain(chain: seq<Group>): (r: Report)
    ensures r.PoolEmpty? <==> |chain| == 0
    ensures r.Ungrouped? <==>
              |chain| > 0 && forall i :: 0 <= i < |chain| ==> |chain[i]| == 1
    ensures r.Ungrouped? ==> r.songs == |chain|
    ensures r.Grouped? ==> r.groups == |chain| && r.songs == |Uris(chain)| && r.groups < r.songs
  {
    UrisAtLeastGroups(chain);
    Choose(|chain|, |Uris(chain)|)
  }

  /** The printed line, without its newline. */
  function Message(r: Report): string
  {
    match r
    case PoolEmpty => "Song pool is empty."
    case Grouped(g, s) => "Picking from " + Decimal(g) + " groups (" + Decimal(s) + " songs)."
    case Ungrouped(s) => "Picking random songs out of a pool of " + Decimal(s) + "."
  }

  predicate IsDigit(c: char)
  {
    '0' <= c <= '9'
  }

  /** A natural number in decimal, without leading zeros. */
  function Decimal(n: nat): (s: string)
    ensures |s| > 0
    ensures forall i :: 0 <= i < |s| ==> IsDigit(s[i])
    ensures |s| > 1 ==> s[0] != '0'
  {
    if n < 10 then [(('0' as int) + n) as char]
    else Decimal(n / 10) + [(('0' as int) + n % 10) as char]
  }

  /** The number a digit string denotes. */
  function Value(s: string): nat
    requires forall i :: 0 <= i < |s| ==> IsDigit(s[i])
  {
    if s == [] then 0
    else
      assert IsDigit(s[|s| - 1]);
      Value(s[..|s| - 1]) * 10 + ((s[|s| - 1] as int) - ('0' as int))
  }

  /** Reading the decimal text back gives the number. */
  lemma {:induction false} DecimalValue(n: nat)
    ensures Value(Decimal(n)) == n
  {
    if n >= 10 {
      DecimalValue(n / 10);
      var s := Decimal(n);
      assert s[..|s| - 1] == Decimal(n / 10);
    }
  }

  /** Distinct reports print distinct lines, so the line tells the operator
      which case holds. */
  lemma MessagesDiffer(a: Report, b: Report)
    requires a.PoolEmpty? != b.PoolEmpty? || a.Grouped? != b.Grouped?
    ensures Message(a) != Message(b)
  {
    var ma, mb := Message(a), Message(b);
    if a.PoolEmpty? || b.PoolEmpty? {
      assert ma[0] != mb[0];
    } else {
      assert ma[8] != mb[8];
    }
  }
}

=== FILE: cint.dfy ===
/**
  C++ fixed-width integer behaviour the refill logic depends on: `unsigned`
  is 32 bits wide and wraps modulo 2^32, and a `static_cast<int>` of an
  `unsigned` reinterprets the bit pattern as two's complement.
 */
module CInt {

  const TWO_31: int := 0x8000_0000
  const TWO_32: int := 0x1_0000_0000

  /** A value of C++ `unsigned`. */
  type uint32 = x: int | 0 <= x < 0x1_0000_0000

  /** The result of unsigned arithmetic whose exact value is `x`. */
  function ToUnsigned(x: int): (r: uint32)
    ensures 0 <= x < TWO_32 ==> r == x
    ensures -TWO_32 <= x < 0 ==> r == x + TWO_32
    ensures (r - x) % TWO_32 == 0
  {
    x % TWO_32
  }

  /** `static_cast<int>` of an unsigned value. */
  function ToSigned(u: uint32): (r: int)
    ensures -TWO_31 <= r < TWO_31
    ensures ToUnsigned(r) == u
    ensures u < TWO_31 ==> r == u
  {
    if u < TWO_31 then u else u - TWO_32
  }
}

=== FILE: host.dfy ===
/**
  `MPDHost` of src/ashuffle.cc: a host argument of the form
  `password@host` is split at its first '@'.
 */
module Host {
  import opened Wrappers

  datatype MpdHost = MpdHost(host: string, password: Option<string>)

  /** `find("@")`: the index of the first '@', if any. */
  function FindAt(s: string): (r: Option<nat>)
    ensures r.None? <==> '@' !in s
    ensures r.Some? ==> r.value < |s| && s[r.value] == '@'
    ensures r.Some? ==> forall i :: 0 <= i < r.value ==> s[i] != '@'
  {
    if s == [] then None
    else if s[0] == '@' then Some(0)
    else
      var rest := FindAt(s[1..]);
      if rest.None? then None
      else
        Some(rest.value + 1)
  }

  /** The constructor: the text before the first '@' is the password, the
      text after it the host; without '@' the whole input is the host. */
  function Parse(input: string): (h: MpdHost)
    ensures '@' !in input ==> h == MpdHost(input, None)
    ensures '@' in input ==>
              && h.password.Some?
              && '@' !in h.password.value
              && input == h.password.value + "@" + h.host
  {
    match FindAt(input)
    case None => MpdHost(input, None)
    case Some(i) =>
      assert input == input[..i] + "@" + input[i + 1..];
      MpdHost(input[i + 1..], Some(input[..i]))
  }

  /** The input text a host value comes from. */
  function Render(h: MpdHost): string
  {
    match h.password
    case None => h.host
    case Some(p) => p + "@" + h.host
  }

  /** Rendering the parsed value gives back the input. */
  lemma RenderParse(input: string)
    ensures Render(Parse(input)) == input
  {
  }

  /** Parsing undoes rendering, for exactly the values parsing can produce:
      a password without '@', and, when there is no password, a host
      without '@'. */
  lemma {:induction false} ParseRender(h: MpdHost)
    ensures Parse(Render(h)) == h <==>
              if h.password.Some? then '@' !in h.password.value else '@' !in h.host
  {
    var s := Render(h);
    match h.password
    case None =>
    case Some(p) =>
      assert s[|p|] == '@';
      if '@' !in p {
        assert s[..|p|] == p;
        var i := FindAt(s).value;
        assert i == |p|;
        assert s[i + 1..] == h.host;
      } else {
        assert '@' in s;
      }
  }
}

=== FILE: idle_events.dfy ===
/**
  `IdleEventSet` of src/mpd.h: a set of MPD idle events kept as the bitwise
  OR of libmpdclient's `enum mpd_idle` flags in a 32-bit `int`.
 */
module IdleEvents {

  /** Eleven of libmpdclient's idle events. MPD_IDLE_PLAYLIST is another name
      for MPD_IDLE_QUEUE, so it has no constructor of its own. */
  datatype IdleEvent =
    | Database | StoredPlaylist | Queue | Player | Mixer | Output
    | Options | Update | Sticker | Subscription | Message

  /** libmpdclient's value of each event. */
  function Flag(e: IdleEvent): bv32
  {
    match e
    case Database => 0x1
    case StoredPlaylist => 0x2
    case Queue => 0x4
    case Player => 0x8
    case Mixer => 0x10
    case Output => 0x20
    case Options => 0x40
    case Update => 0x80
    case Sticker => 0x100
    case Subscription => 0x200
    case Message => 0x400
  }

  /** The union of the modelled event flags. */
  const KnownFlags: bv32 := 0x7ff

  /** Every event owns one bit of its own: flags are single bits inside the
      known mask, and two flags share a bit only when they are the same event. */
  lemma FlagsDistinct(a: IdleEvent, b: IdleEvent)
    ensures Flag(a) != 0 && Flag(a) & (Flag(a) - 1) == 0
    ensures Flag(a) & !KnownFlags == 0
    ensures Flag(a) & Flag(b) != 0 <==> a == b
  {
  }

  datatype IdleEventSet = IdleEventSet(events: bv32)

  /** Membership: the event's bit is set. */
  predicate Has(s: IdleEventSet, e: IdleEvent)
  {
    s.events & Flag(e) != 0
  }

  /** The set holds no bit that belongs to no event. */
  predicate Valid(s: IdleEventSet)
  {
    s.events & !KnownFlags == 0
  }

  /** The default-constructed set. */
  function Empty(): (s: IdleEventSet)
    ensures Valid(s)
    ensures forall e :: !Has(s, e)
  {
    IdleEventSet(0)
  }

  /** `Add`: sets the event's bit, leaving every other member as it was. */
  function Add(s: IdleEventSet, e: IdleEvent): (r: IdleEventSet)
    ensures forall x :: Has(r, x) <==> x == e || Has(s, x)
    ensures Valid(s) ==> Valid(r)
  {
    OrFlagMembers(s, e);
    OrFlagValid(s, e);
    IdleEventSet(s.events | Flag(e))
  }

  /** Or-ing in an event's flag adds that event's bit and no other. */
  lemma OrFlagMembers(s: IdleEventSet, e: IdleEvent)
    ensures forall x :: Has(IdleEventSet(s.events | Flag(e)), x) <==> x == e || Has(s, x)
  {
    var bits := s.events;
    forall x
      ensures Has(IdleEventSet(bits | Flag(e)), x) <==> x == e || Has(s, x)
    {
      FlagsDistinct(x, e);
      if x == e {
        OrKeepsBit(bits, Flag(e));
      } else {
        OrDisjoint(bits, Flag(e), Flag(x));
      }
    }
  }

  lemma OrFlagValid(s: IdleEventSet, e: IdleEvent)
    ensures Valid(s) ==> Valid(IdleEventSet(s.events | Flag(e)))
  {
    FlagsDistinct(e, e);
    OrDisjoint(s.events, Flag(e), !KnownFlags);
  }

  lemma OrKeepsBit(a: bv32, b: bv32)
    requires b != 0
    ensures (a | b) & b != 0
  {
  }

  lemma OrDisjoint(a: bv32, b: bv32, c: bv32)
    requires b & c == 0
    ensures (a | b) & c == a & c
  {
  }

  /** `Enum`: the accumulated bit pattern. Read back as a set it has the same
      members, and for a valid set it is zero exactly when the set is empty.
      What the pattern says about the events a set was built from is stated
      by `EnumFromEvents` and `MembersDetermineBits`. */
  function Enum(s: IdleEventSet): (r: bv32)
    ensures forall e :: Has(IdleEventSet(r), e) <==> Has(s, e)
    ensures Valid(s) ==> Valid(IdleEventSet(r))
    ensures Valid(s) ==> (r == 0 <==> forall e :: !Has(s, e))
  {
    if Valid(s) then
      ZeroIffNoMembers(s);
      s.events
    else
      s.events
  }

  /** A valid set's pattern is zero exactly when no event is a member. */
  lemma ZeroIffNoMembers(s: IdleEventSet)
    requires Valid(s)
    ensures s.events == 0 <==> forall e :: !Has(s, e)
  {
    if forall e :: !Has(s, e) {
      NoMembersZero(s);
    }
  }

  lemma NoMembersZero(s: IdleEventSet)
    requires Valid(s)
    requires forall e :: !Has(s, e)
    ensures s.events == 0
  {
    forall e
      ensures s.events & Flag(e) == 0
    {
      assert !Has(s, e);
    }
    NoFlagsIsZero(s.events);
  }

  /** A pattern with nothing outside the event bits and no event bit set is zero. */
  lemma NoFlagsIsZero(a: bv32)
    requires a & !KnownFlags == 0
    requires forall e :: a & Flag(e) == 0
    ensures a == 0
  {
    assert a & Flag(Database) == 0 && a & Flag(StoredPlaylist) == 0;
    assert a & Flag(Queue) == 0 && a & Flag(Player) == 0;
    assert a & Flag(Mixer) == 0 && a & Flag(Output) == 0;
    assert a & Flag(Options) == 0 && a & Flag(Update) == 0;
    assert a & Flag(Sticker) == 0 && a & Flag(Subscription) == 0;
    assert a & Flag(Message) == 0;
    LowBitsZero(a);
  }

  /** The same, with each flag written as its value. */
  lemma LowBitsZero(a: bv32)
    requires a & !KnownFlags == 0
    requires a & 0x1 == 0 && a & 0x2 == 0 && a & 0x4 == 0 && a & 0x8 == 0
    requires a & 0x10 == 0 && a & 0x20 == 0 && a & 0x40 == 0 && a & 0x80 == 0
    requires a & 0x100 == 0 && a & 0x200 == 0 && a & 0x400 == 0
    ensures a == 0
  {
  }

  /** The variadic constructor: adds each given event in order to the empty set. */
  function FromEvents(es: seq<IdleEvent>): (s: IdleEventSet)
    ensures Valid(s)
    ensures forall e :: Has(s, e) <==> e in es
  {
    if es == [] then Empty()
    else
      var r := Add(FromEvents(es[..|es| - 1]), es[|es| - 1]);
      assert es == es[..|es| - 1] + [es[|es| - 1]];
      r
  }

  /** Adding an event twice is the same as adding it once. */
  lemma AddIdempotent(s: IdleEventSet, e: IdleEvent)
    ensures Add(Add(s, e), e) == Add(s, e)
  {
  }

  /** The order of additions does not matter. */
  lemma AddCommutes(s: IdleEventSet, a: IdleEvent, b: IdleEvent)
    ensures Add(Add(s, a), b) == Add(Add(s, b), a)
  {
  }

  /** A valid set is determined by its members: two valid sets have the same
      bit pattern exactly when they have the same members. */
  lemma MembersDetermineBits(s: IdleEventSet, t: IdleEventSet)
    requires Valid(s) && Valid(t)
    ensures Enum(s) == Enum(t) <==> forall e :: Has(s, e) == Has(t, e)
  {
    if forall e :: Has(s, e) == Has(t, e) {
      var a, b := s.events, t.events;
      forall e
        ensures (a & Flag(e) != 0) == (b & Flag(e) != 0)
      {
        assert Has(s, e) == Has(t, e);
      }
      FlagBitsDetermine(a, b);
    }
  }

  /** The bit pattern of a set built from events has exactly those events'
      bits, and nothing outside the known flags. */
  lemma EnumFromEvents(es: seq<IdleEvent>)
    ensures forall e :: Has(IdleEventSet(Enum(FromEvents(es))), e) <==> e in es
    ensures Valid(IdleEventSet(Enum(FromEvents(es))))
  {
  }

  /** Patterns with nothing outside the eleven event bits are equal when each
      event's bit is set in both or in neither. */
  lemma FlagBitsDetermine(a: bv32, b: bv32)
    requires a & !KnownFlags == 0 && b & !KnownFlags == 0
    requires forall e :: (a & Flag(e) != 0) == (b & Flag(e) != 0)
    ensures a == b
  {
    assert (a & Flag(Database) != 0) == (b & Flag(Database) != 0);
    assert (a & Flag(StoredPlaylist) != 0) == (b & Flag(StoredPlaylist) != 0);
    assert (a & Flag(Queue) != 0) == (b & Flag(Queue) != 0);
    assert (a & Flag(Player) != 0) == (b & Flag(Player) != 0);
    assert (a & Flag(Mixer) != 0) == (b & Flag(Mixer) != 0);
    assert (a & Flag(Output) != 0) == (b & Flag(Output) != 0);
    assert (a & Flag(Options) != 0) == (b & Flag(Options) != 0);
    assert (a & Flag(Update) != 0) == (b & Flag(Update) != 0);
    assert (a & Flag(Sticker) != 0) == (b & Flag(Sticker) != 0);
    assert (a & Flag(Subscription) != 0) == (b & Flag(Subscription) != 0);
    assert (a & Flag(Message) != 0) == (b & Flag(Message) != 0);
    LowBitsDetermine(a, b);
  }

  /** The same, with each flag written as its value. */
  lemma LowBitsDetermine(a: bv32, b: bv32)
    requires a & !KnownFlags == 0 && b & !KnownFlags == 0
    requires (a & 0x1 != 0) == (b & 0x1 != 0) && (a & 0x2 != 0) == (b & 0x2 != 0)
    requires (a & 0x4 != 0) == (b & 0x4 != 0) && (a & 0x8 != 0) == (b & 0x8 != 0)
    requires (a & 0x10 != 0) == (b & 0x10 != 0) && (a & 0x20 != 0) == (b & 0x20 != 0)
    requires (a & 0x40 != 0) == (b & 0x40 != 0) && (a & 0x80 != 0) == (b & 0x80 != 0)
    requires (a & 0x100 != 0) == (b & 0x100 != 0) && (a & 0x200 != 0) == (b & 0x200 != 0)
    requires (a & 0x400 != 0) == (b & 0x400 != 0)
    ensures a == b
  {
  }

  /** Building from events is insensitive to order and repetition: two event
      lists naming the same events give the same bit pattern. */
  lemma SameEventsSameSet(es: seq<IdleEvent>, fs: seq<IdleEvent>)
    requires forall e :: e in es <==> e in fs
    ensures FromEvents(es) == FromEvents(fs)
  {
    MembersDetermineBits(FromEvents(es), FromEvents(fs));
    assert forall e :: Has(FromEvents(es), e) == Has(FromEvents(fs), e);
  }
}

=== FILE: idle_loop.dfy ===
/**
  `Loop` of src/ashuffle.cc: the optional start-up round, then one dispatch
  per idle wakeup. The process exit on a database update is the `Exit`
  outcome; the suspend sleep is recorded, not performed; the statuses MPD
  reports and the events `Idle` returns are inputs.
 */
module IdleLoop {
  import opened Wrappers
  import opened CInt
  import opened Shuffle
  import opened Mpd
  import opened Refill
  import IdleEvents

  /** The idle event sets `Idle` returns. */
  type EventSet = IdleEvents.IdleEventSet

  /** The options the loop reads. `fileIn` stands for `file_in != nullptr`;
      `suspendTimeout` is the suspend duration, 0 meaning none. */
  datatype Options = Options(
    queueBuffer: uint32,
    fileIn: bool,
    exitOnDbUpdate: bool,
    suspendTimeout: nat,
    playOnStartup: bool)

  /** The loader `Reloader` builds: MPD's own database, read with the
      options' rules and grouping. */
  datatype Loader = MpdLoader

  /** `Reloader`: a list read from a file cannot be reloaded. */
  function Reloader(opts: Options): (r: Option<Loader>)
    ensures r.Some? <==> !opts.fileIn
  {
    if opts.fileIn then None else Some(MpdLoader)
  }

  /** The events the loop waits for. */
  function Subscribed(): (s: EventSet)
    ensures forall e :: IdleEvents.Has(s, e) <==>
      e == IdleEvents.Database || e == IdleEvents.Queue || e == IdleEvents.Player
  {
    IdleEvents.FromEvents([IdleEvents.Database, IdleEvents.Queue, IdleEvents.Player])
  }

  /** The outcome of one iteration: the process exits, or the loop goes on
      with a new `active` flag, having maybe reloaded the chain (`Clear` then
      `Load`), maybe slept for the suspend timeout, and sent some commands. */
  datatype Step =
    | Exit
    | Continue(active: bool, reloaded: bool, slept: bool, issued: Issued)

  /** One iteration after `Idle` returned `events`. `now` is the status read
      before a suspend sleep, `woken` the one read after it, and `current`
      the one `TryEnqueue` reads. */
  function LoopStep(
    opts: Options, active: bool, events: EventSet,
    now: Status, woken: Status, current: Status, supply: seq<Group>
  ): (r: Step)
    requires |supply| >= PicksBound(current, opts.queueBuffer)
    ensures r.Exit? <==> IdleEvents.Has(events, IdleEvents.Database) && opts.exitOnDbUpdate
    ensures r.Continue? ==>
              (r.reloaded <==> IdleEvents.Has(events, IdleEvents.Database) && !opts.fileIn)
    ensures r.Continue? && r.reloaded ==> r.issued == Issued([], 0) && !r.slept
    ensures (r.Continue? && !IdleEvents.Has(events, IdleEvents.Queue)
             && !IdleEvents.Has(events, IdleEvents.Player)) ==> r.issued == Issued([], 0)
    ensures r.Continue? ==>
              (r.slept <==> !r.reloaded
                            && (IdleEvents.Has(events, IdleEvents.Queue) || IdleEvents.Has(events, IdleEvents.Player))
                            && opts.suspendTimeout != 0 && now.queueLength == 0)
    ensures r.Continue? && !r.slept ==> r.active == active
    ensures r.Continue? && r.slept ==> (r.active <==> woken.queueLength == 0)
    ensures r.Continue? && !r.active ==> r.issued == Issued([], 0)
    ensures (r.Continue? && !r.reloaded && r.active
             && (IdleEvents.Has(events, IdleEvents.Queue) || IdleEvents.Has(events, IdleEvents.Player)))
              ==> r.issued == TryEnqueue(current, opts.queueBuffer, supply)
    ensures r.Continue? ==> r.issued.picks <= PicksBound(current, opts.queueBuffer)
    ensures r.Continue? ==> AddsPicked(supply, r.issued)
  {
    assert supply[..0] == [];
    var database := IdleEvents.Has(events, IdleEvents.Database);
    if database && opts.exitOnDbUpdate then
      Exit
    else if database && !opts.fileIn then
      Continue(active, Reloader(opts).Some?, false, Issued([], 0))
    else if IdleEvents.Has(events, IdleEvents.Queue) || IdleEvents.Has(events, IdleEvents.Player) then
      var suspendCheck := opts.suspendTimeout != 0 && now.queueLength == 0;
      var nowActive := if suspendCheck then woken.queueLength == 0 else active;
      if !nowActive then
        assert supply[..0] == [];
        Continue(false, false, suspendCheck, Issued([], 0))
      else Continue(true, false, suspendCheck, TryEnqueue(current, opts.queueBuffer, supply))
    else
      Continue(active, false, false, Issued([], 0))
  }

  /** Two traces that each add the URIs of consecutive picks add, together,
      the URIs of all those picks. */
  lemma AddedConcat(supply: seq<Group>, c1: seq<Cmd>, p1: nat, c2: seq<Cmd>, p2: nat)
    requires p1 + p2 <= |supply|
    requires Added(c1) == Uris(supply[..p1])
    requires Added(c2) == Uris(supply[p1..][..p2])
    ensures Added(c1 + c2) == Uris(supply[..p1 + p2])
  {
    AddedAppend(c1, c2);
    assert supply[..p1 + p2] == supply[..p1] + supply[p1..][..p2];
    UrisAppend(supply[..p1], supply[p1..][..p2]);
  }

  /** One round followed by another that picks from where the first stopped:
      together they add the URIs of all the picks taken. */
  function Concat(supply: seq<Group>, first: Issued, next: Issued): (r: Issued)
    requires first.picks + next.picks <= |supply|
    requires AddsPicked(supply, first)
    requires AddsPicked(supply[first.picks..], next)
    ensures r.picks == first.picks + next.picks
    ensures AddsPicked(supply, r)
  {
    AddedConcat(supply, first.cmds, first.picks, next.cmds, next.picks);
    Issued(first.cmds + next.cmds, first.picks + next.picks)
  }

  /** Picks the start-up round may take at most. */
  function StartBound(opts: Options, first: Status, second: Status): nat
  {
    if opts.playOnStartup then (if first.playing then 0 else 1) + PicksBound(second, opts.queueBuffer) else 0
  }

  /** The start-up round when `play_on_startup` is set: `TryFirst` on the
      status `first`, then `TryEnqueue` on the status `second` read after it. */
  function Start(opts: Options, first: Status, second: Status, supply: seq<Group>): (r: Issued)
    requires |supply| >= StartBound(opts, first, second)
    ensures !opts.playOnStartup ==> r == Issued([], 0)
    ensures r.picks <= StartBound(opts, first, second)
    ensures AddsPicked(supply, r)
    ensures opts.playOnStartup && !first.playing ==>
              |r.cmds| > |supply[0]| && r.cmds[|supply[0]|] == PlayAt(first.queueLength)
    ensures opts.playOnStartup ==>
              r.cmds == TryFirst(first, supply).cmds
                        + TryEnqueue(second, opts.queueBuffer, supply[TryFirst(first, supply).picks..]).cmds
  {
    if !opts.playOnStartup then
      assert supply[..0] == [];
      Issued([], 0)
    else
      var f := TryFirst(first, supply);
      var e := TryEnqueue(second, opts.queueBuffer, supply[f.picks..]);
      Concat(supply, f, e)
  }

  /** What `Idle` and `CurrentStatus` report during one iteration. */
  datatype Wake = Wake(events: EventSet, now: Status, woken: Status, current: Status)

  /** Picks a run of iterations may take at most. */
  function RunBound(opts: Options, wakes: seq<Wake>): nat
  {
    if wakes == [] then 0
    else PicksBound(wakes[0].current, opts.queueBuffer) + RunBound(opts, wakes[1..])
  }

  /** The outcome of several iterations: whether the process exited, the
      final `active` flag, and everything sent. */
  datatype RunOutcome = RunOutcome(exited: bool, active: bool, issued: Issued)

  /** Some wakeup of the run reported a database change. */
  predicate DatabaseChanged(wakes: seq<Wake>)
  {
    exists i :: 0 <= i < |wakes| && IdleEvents.Has(wakes[i].events, IdleEvents.Database)
  }

  /** A run reports a database change exactly when its first wakeup or a
      later one does. */
  lemma DatabaseChangedSplit(wakes: seq<Wake>)
    requires wakes != []
    ensures DatabaseChanged(wakes) <==>
              IdleEvents.Has(wakes[0].events, IdleEvents.Database) || DatabaseChanged(wakes[1..])
  {
    if DatabaseChanged(wakes[1..]) {
      var j :| 0 <= j < |wakes[1..]| && IdleEvents.Has(wakes[1..][j].events, IdleEvents.Database);
      assert wakes[j + 1] == wakes[1..][j];
    }
    if DatabaseChanged(wakes) && !IdleEvents.Has(wakes[0].events, IdleEvents.Database) {
      var j :| 0 <= j < |wakes| && IdleEvents.Has(wakes[j].events, IdleEvents.Database);
      assert wakes[1..][j - 1] == wakes[j];
    }
  }

  /** The first iteration of a run. */
  function FirstStep(opts: Options, active: bool, wakes: seq<Wake>, supply: seq<Group>): Step
    requires wakes != [] && |supply| >= RunBound(opts, wakes)
  {
    var w := wakes[0];
    LoopStep(opts, active, w.events, w.now, w.woken, w.current, supply)
  }

  /** Iterations of the loop over successive wakeups, stopping at an exit.
      The `active` flag carries from each iteration into the next. */
  function Iterate(opts: Options, active: bool, wakes: seq<Wake>, supply: seq<Group>): (r: RunOutcome)
    requires |supply| >= RunBound(opts, wakes)
    ensures r.issued.picks <= RunBound(opts, wakes)
    ensures AddsPicked(supply, r.issued)
    ensures r.exited <==> opts.exitOnDbUpdate && DatabaseChanged(wakes)
    ensures !r.exited && opts.suspendTimeout == 0 ==> r.active == active
    ensures wakes == [] ==> r == RunOutcome(false, active, Issued([], 0))
    ensures wakes != [] && FirstStep(opts, active, wakes, supply).Continue? ==>
              FirstStep(opts, active, wakes, supply).issued.cmds <= r.issued.cmds
    decreases |wakes|
  {
    if wakes == [] then
      assert supply[..0] == [];
      RunOutcome(false, active, Issued([], 0))
    else
      var w := wakes[0];
      var step := LoopStep(opts, active, w.events, w.now, w.woken, w.current, supply);
      if step.Exit? then
        assert supply[..0] == [];
        DatabaseChangedSplit(wakes);
        RunOutcome(true, active, Issued([], 0))
      else
        var rest := Iterate(opts, step.active, wakes[1..], supply[step.issued.picks..]);
        DatabaseChangedSplit(wakes);
        RunOutcome(rest.exited, rest.active, Concat(supply, step.issued, rest.issued))
  }

  /** The whole loop: the start-up round, then the iterations, with `active`
      starting out true. */
  function Session(opts: Options, first: Status, second: Status, wakes: seq<Wake>, supply: seq<Group>): (r: RunOutcome)
    requires |supply| >= StartBound(opts, first, second) + RunBound(opts, wakes)
    ensures r.issued.picks <= |supply|
    ensures AddsPicked(supply, r.issued)
    ensures r.exited <==> opts.exitOnDbUpdate && DatabaseChanged(wakes)
    ensures !r.exited && opts.suspendTimeout == 0 ==> r.active
    ensures Start(opts, first, second, supply).cmds <= r.issued.cmds
    ensures r.issued.cmds ==
              Start(opts, first, second, supply).cmds
              + Iterate(opts, true, wakes, supply[Start(opts, first, second, supply).picks..]).issued.cmds
  {
    var startup := Start(opts, first, second, supply);
    var later := Iterate(opts, true, wakes, supply[startup.picks..]);
    RunOutcome(later.exited, later.active, Concat(supply, startup, later.issued))
  }

  /** A suspended loop stays silent: while no wakeup finds the queue empty
      before the sleep, nothing is sent and the loop stays inactive. */
  lemma {:induction false} SuspendedStaysSilent(opts: Options, wakes: seq<Wake>, supply: seq<Group>)
    requires |supply| >= RunBound(opts, wakes)
    requires forall i :: 0 <= i < |wakes| ==> wakes[i].now.queueLength != 0
    ensures var r := Iterate(opts, false, wakes, supply);
            r.issued == Issued([], 0) && (!r.exited ==> !r.active)
    decreases |wakes|
  {
    if wakes != [] {
      var step := FirstStep(opts, false, wakes, supply);
      assert wakes[0].now.queueLength != 0;
      if step.Continue? {
        assert !step.active && step.issued == Issued([], 0);
        forall i | 0 <= i < |wakes[1..]|
          ensures wakes[1..][i].now.queueLength != 0
        {
          assert wakes[1..][i] == wakes[i + 1];
        }
        SuspendedStaysSilent(opts, wakes[1..], supply);
      }
    }
  }

  /** The pick bound of two runs in a row is the sum of their bounds. */
  lemma {:induction false} RunBoundAppend(opts: Options, w1: seq<Wake>, w2: seq<Wake>)
    ensures RunBound(opts, w1 + w2) == RunBound(opts, w1) + RunBound(opts, w2)
    decreases |w1|
  {
    if w1 == [] {
      assert w1 + w2 == w2;
    } else {
      assert (w1 + w2)[0] == w1[0];
      assert (w1 + w2)[1..] == w1[1..] + w2;
      RunBoundAppend(opts, w1[1..], w2);
    }
  }

  /** Running the loop over two batches of wakeups in a row is running it
      over the first batch and then, if it did not exit, over the second,
      with the `active` flag and the remaining picks carried across. */
  lemma {:induction false} IterateAppend(
    opts: Options, active: bool, w1: seq<Wake>, w2: seq<Wake>, supply: seq<Group>)
    requires |supply| >= RunBound(opts, w1) + RunBound(opts, w2)
    ensures RunBound(opts, w1 + w2) == RunBound(opts, w1) + RunBound(opts, w2)
    ensures var r1 := Iterate(opts, active, w1, supply);
            !r1.exited ==>
              var r2 := Iterate(opts, r1.active, w2, supply[r1.issued.picks..]);
              Iterate(opts, active, w1 + w2, supply)
                == RunOutcome(r2.exited, r2.active,
                              Issued(r1.issued.cmds + r2.issued.cmds, r1.issued.picks + r2.issued.picks))
    decreases |w1|, 2
  {
    RunBoundAppend(opts, w1, w2);
    if w1 == [] {
      assert w1 + w2 == w2;
      assert supply[0..] == supply;
    } else if FirstStep(opts, active, w1, supply).Continue? {
      IterateAppendStep(opts, active, w1, w2, supply);
    }
  }

  /** The inductive step of `IterateAppend`, when the first wakeup goes on. */
  lemma {:induction false} IterateAppendStep(
    opts: Options, active: bool, w1: seq<Wake>, w2: seq<Wake>, supply: seq<Group>)
    requires w1 != []
    requires |supply| >= RunBound(opts, w1) + RunBound(opts, w2)
    requires RunBound(opts, w1 + w2) == RunBound(opts, w1) + RunBound(opts, w2)
    requires FirstStep(opts, active, w1, supply).Continue?
    ensures var r1 := Iterate(opts, active, w1, supply);
            !r1.exited ==>
              var r2 := Iterate(opts, r1.active, w2, supply[r1.issued.picks..]);
              Iterate(opts, active, w1 + w2, supply)
                == RunOutcome(r2.exited, r2.active,
                              Issued(r1.issued.cmds + r2.issued.cmds, r1.issued.picks + r2.issued.picks))
    decreases |w1|, 1
  {
    var step := FirstStep(opts, active, w1, supply);
    UnfoldBoth(opts, active, w1, w2, supply);
    TailAppend(opts, active, w1, w2, supply);
    var r1 := Iterate(opts, active, w1, supply);
    if !r1.exited {
      CombineOutcomes(step.issued, Iterate(opts, step.active, w1[1..], supply[step.issued.picks..]), r1,
                      Iterate(opts, r1.active, w2, supply[r1.issued.picks..]),
                      Iterate(opts, step.active, w1[1..] + w2, supply[step.issued.picks..]),
                      Iterate(opts, active, w1 + w2, supply));
    }
  }

  /** After the first wakeup of `w1`, enough picks are left for the rest of
      `w1` and all of `w2`; after the whole of `w1`, enough for `w2`. */
  lemma TailBounds(opts: Options, active: bool, w1: seq<Wake>, w2: seq<Wake>, supply: seq<Group>)
    requires w1 != []
    requires |supply| >= RunBound(opts, w1) + RunBound(opts, w2)
    requires FirstStep(opts, active, w1, supply).Continue?
    ensures FirstStep(opts, active, w1, supply).issued.picks
            + RunBound(opts, w1[1..]) + RunBound(opts, w2) <= |supply|
    ensures RunBound(opts, w1[1..] + w2) == RunBound(opts, w1[1..]) + RunBound(opts, w2)
    ensures Iterate(opts, active, w1, supply).issued.picks + RunBound(opts, w2) <= |supply|
  {
    RunBoundAppend(opts, w1[1..], w2);
  }

  /** `IterateAppend` for the wakeups after the first one of `w1`, with the
      second batch starting where the whole of `w1` left off. */
  lemma {:induction false} TailAppend(
    opts: Options, active: bool, w1: seq<Wake>, w2: seq<Wake>, supply: seq<Group>)
    requires w1 != []
    requires |supply| >= RunBound(opts, w1) + RunBound(opts, w2)
    requires FirstStep(opts, active, w1, supply).Continue?
    requires FirstStep(opts, active, w1, supply).issued.picks
             + RunBound(opts, w1[1..]) + RunBound(opts, w2) <= |supply|
    requires RunBound(opts, w1[1..] + w2) == RunBound(opts, w1[1..]) + RunBound(opts, w2)
    requires Iterate(opts, active, w1, supply).issued.picks + RunBound(opts, w2) <= |supply|
    ensures var step := FirstStep(opts, active, w1, supply);
            var r1 := Iterate(opts, active, w1, supply);
            var t1 := Iterate(opts, step.active, w1[1..], supply[step.issued.picks..]);
            !r1.exited ==>
              var r2 := Iterate(opts, r1.active, w2, supply[r1.issued.picks..]);
              Iterate(opts, step.active, w1[1..] + w2, supply[step.issued.picks..])
                == RunOutcome(r2.exited, r2.active,
                              Issued(t1.issued.cmds + r2.issued.cmds, t1.issued.picks + r2.issued.picks))
    decreases |w1|, 0
  {
    var step := FirstStep(opts, active, w1, supply);
    var rest := supply[step.issued.picks..];
    IterateUnfold(opts, active, w1, supply);
    var t1 := Iterate(opts, step.active, w1[1..], rest);
    var r1 := Iterate(opts, active, w1, supply);
    if !r1.exited {
      IterateAppend(opts, step.active, w1[1..], w2, rest);
      SameIterate(opts, r1.active, t1.active, w2, supply, r1.issued.picks, step.issued.picks, t1.issued.picks);
    }
  }

  /** `Iterate` over `w1` and over `w1 + w2` both start with the first
      wakeup of `w1` and go on from the same remaining picks. */
  lemma UnfoldBoth(opts: Options, active: bool, w1: seq<Wake>, w2: seq<Wake>, supply: seq<Group>)
    requires w1 != []
    requires |supply| >= RunBound(opts, w1) + RunBound(opts, w2)
    requires RunBound(opts, w1 + w2) == RunBound(opts, w1) + RunBound(opts, w2)
    requires FirstStep(opts, active, w1, supply).Continue?
    ensures var step := FirstStep(opts, active, w1, supply);
            step.issued.picks + RunBound(opts, w1[1..]) + RunBound(opts, w2) <= |supply|
    ensures var step := FirstStep(opts, active, w1, supply);
            var t := Iterate(opts, step.active, w1[1..], supply[step.issued.picks..]);
            Iterate(opts, active, w1, supply)
              == RunOutcome(t.exited, t.active,
                            Issued(step.issued.cmds + t.issued.cmds, step.issued.picks + t.issued.picks))
    ensures var step := FirstStep(opts, active, w1, supply);
            RunBound(opts, w1[1..] + w2) == RunBound(opts, w1[1..]) + RunBound(opts, w2)
            && var t := Iterate(opts, step.active, w1[1..] + w2, supply[step.issued.picks..]);
            Iterate(opts, active, w1 + w2, supply)
              == RunOutcome(t.exited, t.active,
                            Issued(step.issued.cmds + t.issued.cmds, step.issued.picks + t.issued.picks))
  {
    FirstStepAppend(opts, active, w1, w2, supply);
    TailBounds(opts, active, w1, w2, supply);
    IterateUnfold(opts, active, w1, supply);
    IterateUnfold(opts, active, w1 + w2, supply);
  }

  /** Appending a batch of wakeups keeps the first iteration. */
  lemma FirstStepAppend(opts: Options, active: bool, w1: seq<Wake>, w2: seq<Wake>, supply: seq<Group>)
    requires w1 != []
    requires |supply| >= RunBound(opts, w1) + RunBound(opts, w2)
    requires RunBound(opts, w1 + w2) == RunBound(opts, w1) + RunBound(opts, w2)
    ensures (w1 + w2)[1..] == w1[1..] + w2
    ensures FirstStep(opts, active, w1 + w2, supply) == FirstStep(opts, active, w1, supply)
  {
    var w, v := (w1 + w2)[0], w1[0];
    assert w == v;
    assert (w1 + w2)[1..] == w1[1..] + w2;
  }

  /** Dropping `p` and then `q` elements drops `p + q`. */
  lemma DropDrop(supply: seq<Group>, p: nat, q: nat)
    requires p + q <= |supply|
    ensures supply[p..][q..] == supply[p + q..]
  {
  }

  /** One unfolding of `Iterate` when the first wakeup goes on. */
  lemma IterateUnfold(opts: Options, active: bool, wakes: seq<Wake>, supply: seq<Group>)
    requires wakes != [] && |supply| >= RunBound(opts, wakes)
    requires FirstStep(opts, active, wakes, supply).Continue?
    ensures var step := FirstStep(opts, active, wakes, supply);
            var t := Iterate(opts, step.active, wakes[1..], supply[step.issued.picks..]);
            Iterate(opts, active, wakes, supply)
              == RunOutcome(t.exited, t.active,
                            Issued(step.issued.cmds + t.issued.cmds, step.issued.picks + t.issued.picks))
  {
  }

  /** `Iterate` from the same flag on picks reached in one jump of `n` or
      in two jumps of `p` and `q` with `n == p + q`. */
  lemma SameIterate(opts: Options, a: bool, b: bool, wakes: seq<Wake>, supply: seq<Group>, n: nat, p: nat, q: nat)
    requires a == b && n == p + q && n + RunBound(opts, wakes) <= |supply|
    ensures Iterate(opts, a, wakes, supply[n..]) == Iterate(opts, b, wakes, supply[p..][q..])
  {
    DropDrop(supply, p, q);
    var s1, s2 := supply[n..], supply[p..][q..];
    assert s1 == s2;
  }

  /** A step followed by a run that itself splits into two parts is the step
      and the first part, followed by the second part. */
  lemma CombineOutcomes(step: Issued, t1: RunOutcome, r1: RunOutcome, r2: RunOutcome,
                        tail: RunOutcome, whole: RunOutcome)
    requires r1 == RunOutcome(t1.exited, t1.active,
                              Issued(step.cmds + t1.issued.cmds, step.picks + t1.issued.picks))
    requires tail == RunOutcome(r2.exited, r2.active,
                                Issued(t1.issued.cmds + r2.issued.cmds, t1.issued.picks + r2.issued.picks))
    requires whole == RunOutcome(tail.exited, tail.active,
                                 Issued(step.cmds + tail.issued.cmds, step.picks + tail.issued.picks))
    ensures whole == RunOutcome(r2.exited, r2.active,
                                Issued(r1.issued.cmds + r2.issued.cmds, r1.issued.picks + r2.issued.picks))
  {
    AppendAssoc(step.cmds, t1.issued.cmds, r2.issued.cmds);
  }

  /** Concatenation of command traces is associative. */
  lemma AppendAssoc(a: seq<Cmd>, b: seq<Cmd>, c: seq<Cmd>)
    ensures a + (b + c) == (a + b) + c
  {
  }
}

=== FILE: mpd.dfy ===
/**
  The MPD connection as the refill logic sees it (src/mpd.h): a status
  snapshot, and the commands it sends, recorded as a trace. `Server` is a
  reference reading of that trace: what the commands do to MPD's queue and
  play state.
 */
module Mpd {
  import opened Wrappers
  import opened CInt

  /** A queue position `Status::SongPosition` can report. The value INT_MAX is
      left out because the refill logic computes `position + 1` as an `int`. */
  type Position = p: int | 0 <= p < 0x7fff_ffff

  /** The player status snapshot. */
  datatype Status = Status(
    queueLength: uint32,
    songPosition: Option<Position>,
    single: bool,
    playing: bool)

  /** A snapshot MPD can report: a current song lies inside the queue. */
  predicate Consistent(st: Status)
  {
    st.songPosition.Some? ==> st.songPosition.value < st.queueLength
  }

  /** The commands the core sends over the connection. */
  datatype Cmd = Add(uri: string) | PlayAt(position: uint32) | Pause

  /** `MPD::Add(const std::vector<std::string>&)`: one `Add` per URI, in order,
      and nothing else. */
  function AddAll(uris: seq<string>): (cmds: seq<Cmd>)
    ensures |cmds| == |uris|
    ensures forall i :: 0 <= i < |uris| ==> cmds[i] == Add(uris[i])
  {
    if uris == [] then [] else [Add(uris[0])] + AddAll(uris[1..])
  }

  /** The URIs a trace adds, in order. */
  function Added(cmds: seq<Cmd>): seq<string>
  {
    if cmds == [] then []
    else (if cmds[0].Add? then [cmds[0].uri] else []) + Added(cmds[1..])
  }

  lemma {:induction false} AddedAppend(a: seq<Cmd>, b: seq<Cmd>)
    ensures Added(a + b) == Added(a) + Added(b)
    decreases |a|
  {
    if a == [] {
      assert a + b == b;
    } else {
      assert (a + b)[1..] == a[1..] + b;
      AddedAppend(a[1..], b);
    }
  }

  /** Expanding URIs into adds and reading the adds back gives the URIs. */
  lemma {:induction false} AddedAddAll(uris: seq<string>)
    ensures Added(AddAll(uris)) == uris
    decreases |uris|
  {
    if uris != [] {
      AddedAddAll(uris[1..]);
    }
  }

  lemma {:induction false} AddAllAppend(a: seq<string>, b: seq<string>)
    ensures AddAll(a + b) == AddAll(a) + AddAll(b)
  {
    assert (a + b)[..|a|] == a && (a + b)[|a|..] == b;
  }

  /** A trace without `Add` commands adds nothing. */
  lemma {:induction false} AddedNoAdds(cmds: seq<Cmd>)
    requires forall i :: 0 <= i < |cmds| ==> !cmds[i].Add?
    ensures Added(cmds) == []
    decreases |cmds|
  {
    if cmds != [] {
      AddedNoAdds(cmds[1..]);
    }
  }

  /** What MPD holds: the queue, the current position, and whether it plays. */
  datatype Server = Server(queue: seq<string>, current: Option<nat>, playing: bool)

  /** The effect of one command. */
  function Exec(sv: Server, c: Cmd): Server
  {
    match c
    case Add(u) => sv.(queue := sv.queue + [u])
    case PlayAt(n) => sv.(current := Some(n), playing := true)
    case Pause => sv.(playing := false)
  }

  /** The effect of a trace, first command first. */
  function ExecAll(sv: Server, cmds: seq<Cmd>): Server
    decreases |cmds|
  {
    if cmds == [] then sv else ExecAll(Exec(sv, cmds[0]), cmds[1..])
  }

  lemma {:induction false} ExecAllAppend(sv: Server, a: seq<Cmd>, b: seq<Cmd>)
    ensures ExecAll(sv, a + b) == ExecAll(ExecAll(sv, a), b)
    decreases |a|
  {
    if a == [] {
      assert a + b == b;
    } else {
      assert (a + b)[0] == a[0] && (a + b)[1..] == a[1..] + b;
      ExecAllAppend(Exec(sv, a[0]), a[1..], b);
    }
  }

  /** Executing the adds of a URI list appends exactly those URIs to the queue
      and leaves the play state alone. */
  lemma {:induction false} ExecAddAll(sv: Server, uris: seq<string>)
    ensures ExecAll(sv, AddAll(uris)) == sv.(queue := sv.queue + uris)
    decreases |uris|
  {
    if uris == [] {
      assert sv.queue + uris == sv.queue;
    } else {
      var cmds := AddAll(uris);
      assert cmds[0] == Add(uris[0]) && cmds[1..] == AddAll(uris[1..]);
      var next := Exec(sv, Add(uris[0]));
      ExecAddAll(next, uris[1..]);
      assert next.queue + uris[1..] == sv.queue + uris;
    }
  }

  /** The snapshot describes the server: same queue length and play state. */
  predicate Describes(st: Status, sv: Server)
  {
    && st.queueLength == |sv.queue|
    && st.playing == sv.playing
    && (st.songPosition.Some? ==> sv.current == Some(st.songPosition.value as nat))
  }
}

=== FILE: refill.dfy ===
/**
  The queue-refill decisions of src/ashuffle.cc: `TryFirst` and `TryEnqueue`
  as pure functions from a status snapshot, the configured queue buffer and
  the chain's upcoming picks to the commands sent to MPD.
 */
module Refill {
  import opened Wrappers
  import opened CInt
  import opened Shuffle
  import opened Mpd

  /** What one call sends to MPD, and how many picks of the chain it used. */
  datatype Issued = Issued(cmds: seq<Cmd>, picks: nat)

  /** A round's commands add exactly the URIs of the picks it took from the
      front of `supply`. */
  predicate AddsPicked(supply: seq<Group>, issued: Issued)
    requires issued.picks <= |supply|
  {
    Added(issued.cmds) == Taken(supply, issued.picks)
  }

  /** `past_last`: there is no current song. */
  predicate PastLast(st: Status)
  {
    st.songPosition.None?
  }

  /** `queue_empty`. */
  predicate QueueEmpty(st: Status)
  {
    st.queueLength == 0
  }

  /** `queue_songs_remaining`: the songs after the current one. It is an
      `unsigned`, so a position at or past the end of the queue wraps. */
  function Remaining(st: Status): (r: uint32)
    ensures st.songPosition.None? ==> r == 0
    ensures st.songPosition.Some? && st.songPosition.value < st.queueLength ==>
              r == st.queueLength - (st.songPosition.value + 1)
    ensures st.songPosition.Some? && st.songPosition.value >= st.queueLength ==>
              r == TWO_32 + st.queueLength - (st.songPosition.value + 1)
  {
    if PastLast(st) then 0
    else ToUnsigned(st.queueLength - (st.songPosition.value + 1))
  }

  /** `should_add`, in the order the source tests it. */
  predicate ShouldAdd(st: Status, queueBuffer: uint32)
  {
    if PastLast(st) then true
    else if Remaining(st) < queueBuffer then true
    else QueueEmpty(st)
  }

  /** Whether the round ends by starting playback at the old end of the queue. */
  predicate Restarts(st: Status, queueBuffer: uint32)
  {
    ShouldAdd(st, queueBuffer) && (PastLast(st) || QueueEmpty(st))
  }

  /** `needed`: how many URIs the buffered branch must enqueue, computed with
      the source's casts to `int`. */
  function Needed(st: Status, queueBuffer: uint32): (r: int)
    ensures Consistent(st) && ShouldAdd(st, queueBuffer) && queueBuffer < TWO_31 ==>
              r == queueBuffer - Remaining(st) + (if PastLast(st) then 1 else 0)
    ensures ShouldAdd(st, queueBuffer) && 0 < queueBuffer < TWO_31 ==> r > 0
  {
    var n := ToSigned(queueBuffer) - ToSigned(Remaining(st));
    if PastLast(st) || QueueEmpty(st) then n + 1 else n
  }

  /** How many picks one `TryEnqueue` can take at most: every pick has at
      least one URI, so the `needed` loop runs at most `needed` times. */
  function PicksBound(st: Status, queueBuffer: uint32): nat
  {
    if !ShouldAdd(st, queueBuffer) then 0
    else if queueBuffer == 0 then 1
    else if Needed(st, queueBuffer) > 0 then Needed(st, queueBuffer)
    else 0
  }

  /** The `while (needed > 0)` loop: enqueue whole picks until at least
      `needed` URIs went in. It stops at the first pick that reaches the
      target, so it may overshoot by less than that pick's size. */
  function Fill(supply: seq<Group>, needed: int): (r: Issued)
    requires needed <= |supply|
    ensures needed <= 0 ==> r.picks == 0
    ensures needed > 0 ==> 0 < r.picks <= needed
    ensures r.cmds == AddAll(Taken(supply, r.picks))
    ensures |Taken(supply, r.picks)| >= needed
    ensures needed > 0 ==> |Taken(supply, r.picks - 1)| < needed
    decreases needed
  {
    if needed <= 0 then
      assert supply[..0] == [];
      Issued([], 0)
    else
      var picked := supply[0];
      var rest := Fill(supply[1..], needed - |picked|);
      FillStep(supply, rest.picks);
      AddAllAppend(picked, Uris(supply[1..][..rest.picks]));
      Issued(AddAll(picked) + rest.cmds, rest.picks + 1)
  }

  lemma FillStep(supply: seq<Group>, k: nat)
    requires k < |supply|
    ensures Uris(supply[..k + 1]) == supply[0] + Uris(supply[1..][..k])
    ensures k > 0 ==> Uris(supply[..k]) == supply[0] + Uris(supply[1..][..k - 1])
  {
    UrisPrefixHead(supply, k + 1);
    if k > 0 {
      UrisPrefixHead(supply, k);
    }
  }

  /** The commands that restart playback after a refill. */
  function RestartCmds(st: Status, queueBuffer: uint32): seq<Cmd>
  {
    if Restarts(st, queueBuffer) then
      [PlayAt(st.queueLength)] + (if st.single then [Pause] else [])
    else []
  }

  /** `TryFirst`: when MPD is not playing, enqueue one pick and play it. */
  function TryFirst(st: Status, supply: seq<Group>): (r: Issued)
    requires !st.playing ==> |supply| >= 1
    ensures r.picks <= |supply|
    ensures st.playing <==> r.cmds == []
    ensures st.playing ==> r.picks == 0
    ensures AddsPicked(supply, r)
    ensures !st.playing ==> r.picks == 1 && r.cmds[|r.cmds| - 1] == PlayAt(st.queueLength)
    ensures !st.playing ==> forall i :: 0 <= i < |r.cmds| - 1 ==> r.cmds[i].Add?
  {
    if st.playing then
      assert supply[..0] == [];
      Issued([], 0)
    else
      UrisPrefixHead(supply, 1);
      assert supply[1..][..0] == [];
      AddedAppend(AddAll(supply[0]), [PlayAt(st.queueLength)]);
      AddedAddAll(supply[0]);
      Issued(AddAll(supply[0]) + [PlayAt(st.queueLength)], 1)
  }

  /** The adding half of `TryEnqueue`: nothing when no refill is due, the
      `needed` loop with a queue buffer, a single pick without one. */
  function AddPicks(st: Status, queueBuffer: uint32, supply: seq<Group>): (r: Issued)
    requires |supply| >= PicksBound(st, queueBuffer)
    ensures r.picks <= PicksBound(st, queueBuffer)
    ensures r.cmds == AddAll(Taken(supply, r.picks))
    ensures !ShouldAdd(st, queueBuffer) ==> r.picks == 0
    ensures ShouldAdd(st, queueBuffer) && queueBuffer == 0 ==> r.picks == 1
    ensures ShouldAdd(st, queueBuffer) && queueBuffer != 0 ==>
              |Taken(supply, r.picks)| >= Needed(st, queueBuffer)
    ensures ShouldAdd(st, queueBuffer) && queueBuffer != 0 && r.picks > 0 ==>
              |Taken(supply, r.picks - 1)| < Needed(st, queueBuffer)
  {
    if !ShouldAdd(st, queueBuffer) then
      assert supply[..0] == [];
      Issued([], 0)
    else if queueBuffer != 0 then
      Fill(supply, Needed(st, queueBuffer))
    else
      UrisPrefixHead(supply, 1);
      assert supply[1..][..0] == [];
      Issued(AddAll(supply[0]), 1)
  }

  /** `TryEnqueue`: top up the queue from the chain, then restart playback
      when MPD had run off the end of its queue. */
  function TryEnqueue(st: Status, queueBuffer: uint32, supply: seq<Group>): (r: Issued)
    requires |supply| >= PicksBound(st, queueBuffer)
    ensures r.picks <= PicksBound(st, queueBuffer)
    ensures r.cmds == AddAll(Taken(supply, r.picks)) + RestartCmds(st, queueBuffer)
    ensures AddsPicked(supply, r)
    ensures !ShouldAdd(st, queueBuffer) ==> r.picks == 0
    ensures ShouldAdd(st, queueBuffer) && queueBuffer == 0 ==> r.picks == 1
    ensures ShouldAdd(st, queueBuffer) && queueBuffer != 0 ==>
              |Taken(supply, r.picks)| >= Needed(st, queueBuffer)
    ensures ShouldAdd(st, queueBuffer) && queueBuffer != 0 && r.picks > 0 ==>
              |Taken(supply, r.picks - 1)| < Needed(st, queueBuffer)
  {
    var added := AddPicks(st, queueBuffer, supply);
    AddedAppend(added.cmds, RestartCmds(st, queueBuffer));
    AddedAddAll(Uris(supply[..added.picks]));
    AddedNoAdds(RestartCmds(st, queueBuffer));
    Issued(added.cmds + RestartCmds(st, queueBuffer), added.picks)
  }
}

=== FILE: refill_laws.dfy ===
/**
  What the refill decisions promise, stated against the snapshot they read
  and against the reference reading of the command trace (`Mpd.ExecAll`).
 */
module RefillLaws {
  import opened Wrappers
  import opened CInt
  import opened Shuffle
  import opened Mpd
  import opened Refill

  /** For a snapshot MPD can report, a refill is due exactly when there is no
      current song or fewer than `queue_buffer` songs follow it. */
  lemma ShouldAddMeaning(st: Status, queueBuffer: uint32)
    requires Consistent(st)
    ensures ShouldAdd(st, queueBuffer) <==>
              || st.songPosition.None?
              || st.queueLength - (st.songPosition.value + 1) < queueBuffer
  {
  }

  /** A position at or past the end of the queue makes the unsigned
      `queue_songs_remaining` wrap to a huge value, so with any buffer below
      2^31 such a snapshot triggers a refill only when the queue is empty. */
  lemma WrappedRemainingRefillsOnlyEmptyQueue(st: Status, queueBuffer: uint32)
    requires st.songPosition.Some? && st.songPosition.value >= st.queueLength
    requires queueBuffer < TWO_31
    ensures Remaining(st) >= TWO_31
    ensures ShouldAdd(st, queueBuffer) <==> st.queueLength == 0
  {
  }

  /** When no refill is due, `TryEnqueue` sends nothing at all: no `Add`,
      no `PlayAt`, no `Pause`. */
  lemma NoRefillNoCommands(st: Status, queueBuffer: uint32, supply: seq<Group>)
    requires !ShouldAdd(st, queueBuffer)
    ensures TryEnqueue(st, queueBuffer, supply).cmds == []
  {
    assert supply[..0] == [];
  }

  /** The buffer target is met after every `TryEnqueue`: counting from the song
      that plays afterwards (the old current song, or the first added one
      when playback restarts), at least `queue_buffer` songs follow it. */
  lemma BufferRefilled(st: Status, queueBuffer: uint32, supply: seq<Group>)
    requires Consistent(st) && queueBuffer < TWO_31
    requires |supply| >= PicksBound(st, queueBuffer)
    ensures
      var added := |Uris(supply[..TryEnqueue(st, queueBuffer, supply).picks])|;
      var current := if PastLast(st) then st.queueLength else st.songPosition.value;
      st.queueLength + added - (current + 1) >= queueBuffer
  {
    var r := AddPicks(st, queueBuffer, supply);
    assert TryEnqueue(st, queueBuffer, supply).picks == r.picks;
    if ShouldAdd(st, queueBuffer) && queueBuffer == 0 {
      UrisAtLeastGroups(supply[..r.picks]);
    }
  }

  /** The `needed` loop overshoots by less than its last pick: every pick but
      the last left the target unmet. */
  lemma OvershootBelowLastPick(st: Status, queueBuffer: uint32, supply: seq<Group>)
    requires 0 < queueBuffer < TWO_31 && ShouldAdd(st, queueBuffer)
    requires |supply| >= PicksBound(st, queueBuffer)
    ensures
      var n := TryEnqueue(st, queueBuffer, supply).picks;
      && 0 < n
      && Needed(st, queueBuffer) <= |Uris(supply[..n])|
      && |Uris(supply[..n])| < Needed(st, queueBuffer) + |supply[n - 1]|
  {
    var n := AddPicks(st, queueBuffer, supply).picks;
    UrisPrefixStep(supply, n - 1);
  }

  /** `PlayAt` goes to the pre-refill queue length exactly when the round
      restarts playback, and `Pause` follows it exactly when single mode is on. */
  lemma RestartCommands(st: Status, queueBuffer: uint32, supply: seq<Group>)
    requires |supply| >= PicksBound(st, queueBuffer)
    ensures
      var cmds := TryEnqueue(st, queueBuffer, supply).cmds;
      && (PlayAt(st.queueLength) in cmds <==> Restarts(st, queueBuffer))
      && (Pause in cmds <==> Restarts(st, queueBuffer) && st.single)
      && (forall i :: 0 <= i < |cmds| && cmds[i].PlayAt? ==> cmds[i].position == st.queueLength)
  {
    var r := TryEnqueue(st, queueBuffer, supply);
    var adds := AddAll(Uris(supply[..r.picks]));
    assert r.cmds == adds + RestartCmds(st, queueBuffer);
    AddsThenRestart(adds, st, queueBuffer);
  }

  /** Adds followed by the restart commands: the restart part alone decides
      which `PlayAt` and `Pause` appear. */
  lemma AddsThenRestart(adds: seq<Cmd>, st: Status, queueBuffer: uint32)
    requires forall i :: 0 <= i < |adds| ==> adds[i].Add?
    ensures
      var cmds := adds + RestartCmds(st, queueBuffer);
      && (PlayAt(st.queueLength) in cmds <==> Restarts(st, queueBuffer))
      && (Pause in cmds <==> Restarts(st, queueBuffer) && st.single)
      && (forall i :: 0 <= i < |cmds| && cmds[i].PlayAt? ==> cmds[i].position == st.queueLength)
  {
    var cmds := adds + RestartCmds(st, queueBuffer);
    assert PlayAt(st.queueLength) !in adds && Pause !in adds;
    forall i | 0 <= i < |cmds| && cmds[i].PlayAt?
      ensures cmds[i].position == st.queueLength
    {
      assert i >= |adds|;
    }
  }

  /** A restarting round plays the first URI it added, and is left paused
      exactly when single mode is on. */
  lemma RestartPlaysFirstPick(st: Status, sv: Server, queueBuffer: uint32, supply: seq<Group>)
    requires Describes(st, sv) && Restarts(st, queueBuffer) && queueBuffer < TWO_31
    requires |supply| >= PicksBound(st, queueBuffer)
    ensures
      var r := TryEnqueue(st, queueBuffer, supply);
      var after := ExecAll(sv, r.cmds);
      && r.picks >= 1
      && after.queue == sv.queue + Uris(supply[..r.picks])
      && after.current == Some(|sv.queue|)
      && after.queue[|sv.queue|] == supply[0][0]
      && after.playing == !st.single
  {
    var r := TryEnqueue(st, queueBuffer, supply);
    var uris := Uris(supply[..r.picks]);
    var tail := RestartCmds(st, queueBuffer);
    assert r.picks >= 1;
    ExecAllAppend(sv, AddAll(uris), tail);
    ExecAddAll(sv, uris);
    var mid := sv.(queue := sv.queue + uris);
    if st.single {
      assert tail == [PlayAt(st.queueLength), Pause];
      assert tail[1..] == [Pause] && [Pause][1..] == [];
      var played := Exec(mid, PlayAt(st.queueLength));
      assert ExecAll(mid, tail) == ExecAll(played, [Pause]);
      assert ExecAll(mid, tail) == ExecAll(Exec(Exec(mid, PlayAt(st.queueLength)), Pause), []);
    } else {
      assert tail == [PlayAt(st.queueLength)];
      assert ExecAll(mid, tail) == ExecAll(Exec(mid, PlayAt(st.queueLength)), []);
    }
    UrisPrefixHead(supply, r.picks);
    assert (sv.queue + uris)[|sv.queue|] == uris[0];
  }

  /** A round that does not restart only appends to the queue: the current
      position and the play state are untouched. */
  lemma NoRestartKeepsPlayback(st: Status, sv: Server, queueBuffer: uint32, supply: seq<Group>)
    requires !Restarts(st, queueBuffer)
    requires |supply| >= PicksBound(st, queueBuffer)
    ensures
      var r := TryEnqueue(st, queueBuffer, supply);
      ExecAll(sv, r.cmds) == sv.(queue := sv.queue + Uris(supply[..r.picks]))
  {
    var r := TryEnqueue(st, queueBuffer, supply);
    var uris := Uris(supply[..r.picks]);
    assert RestartCmds(st, queueBuffer) == [];
    assert r.cmds == AddAll(uris) + [] == AddAll(uris);
    ExecAddAll(sv, uris);
  }

  /** `TryFirst` on a stopped player appends one pick and plays its first URI,
      which sits at the old queue length. */
  lemma TryFirstPlaysPick(st: Status, sv: Server, supply: seq<Group>)
    requires Describes(st, sv) && !st.playing && |supply| >= 1
    ensures
      var after := ExecAll(sv, TryFirst(st, supply).cmds);
      && after.queue == sv.queue + supply[0]
      && after.current == Some(|sv.queue|)
      && after.queue[|sv.queue|] == supply[0][0]
      && after.playing
  {
    var cmds := TryFirst(st, supply).cmds;
    assert cmds == AddAll(supply[0]) + [PlayAt(st.queueLength)];
    ExecAllAppend(sv, AddAll(supply[0]), [PlayAt(st.queueLength)]);
    ExecAddAll(sv, supply[0]);
    var mid := sv.(queue := sv.queue + supply[0]);
    assert ExecAll(mid, [PlayAt(st.queueLength)]) == ExecAll(Exec(mid, PlayAt(st.queueLength)), []);
  }

  /** Buffer of 10, queue of 12, playing position 3: eight songs remain, so at
      least two more URIs are enqueued and playback is not touched. */
  lemma ExampleTopUp(supply: seq<Group>)
    requires |supply| >= 2
    ensures
      var st := Status(12, Some(3), false, true);
      var r := TryEnqueue(st, 10, supply);
      && |Uris(supply[..r.picks])| >= 2
      && (forall i :: 0 <= i < |r.cmds| ==> r.cmds[i].Add?)
  {
    var st := Status(12, Some(3), false, true);
    assert Remaining(st) == 8 && Needed(st, 10) == 2;
  }

  /** Empty queue, nothing current, no buffer: exactly one pick is enqueued
      and played from position 0. */
  lemma ExampleEmptyQueue(supply: seq<Group>, single: bool)
    requires |supply| >= 1
    ensures
      var r := TryEnqueue(Status(0, None, single, false), 0, supply);
      && r.picks == 1
      && r.cmds == AddAll(supply[0]) + [PlayAt(0)] + (if single then [Pause] else [])
  {
    UrisPrefixHead(supply, 1);
    assert supply[1..][..0] == [];
  }

  /** A `queue_buffer` of 2^31 or more becomes negative under the cast to
      `int`, so `needed` is not positive and no pick is added; only the
      restart commands can be sent. */
  lemma OversizedBufferAddsNothing(st: Status, queueBuffer: uint32, supply: seq<Group>)
    requires queueBuffer >= TWO_31 && Remaining(st) < TWO_31
    requires |supply| >= PicksBound(st, queueBuffer)
    ensures Needed(st, queueBuffer) <= 0
    ensures TryEnqueue(st, queueBuffer, supply).picks == 0
    ensures TryEnqueue(st, queueBuffer, supply).cmds == RestartCmds(st, queueBuffer)
  {
    assert supply[..0] == [];
  }

  /** With no current song and a buffer of 2^31, only `PlayAt` of the old
      queue length is sent, although nothing was added at that slot. */
  lemma ExampleOversizedBuffer(supply: seq<Group>)
    ensures TryEnqueue(Status(5, None, false, false), 0x8000_0000, supply).cmds == [PlayAt(5)]
  {
    OversizedBufferAddsNothing(Status(5, None, false, false), 0x8000_0000, supply);
  }
}

=== FILE: shuffle.dfy ===
/**
  The interface of the shuffle chain that the refill logic sees. The chain's
  selection algorithm is not part of this model: a pick is a group, a
  non-empty sequence of song URIs that is always enqueued as a unit, and the
  picks a chain hands out are given as a sequence consumed left to right.
 */
module Shuffle {

  /** One pick of the chain: at least one URI. */
  type Group = g: seq<string> | |g| > 0 witness [""]

  /** The URIs of a sequence of groups, in order. */
  function Uris(gs: seq<Group>): seq<string>
  {
    if gs == [] then [] else gs[0] + Uris(gs[1..])
  }

  /** The URIs of the first `n` picks. */
  function Taken(gs: seq<Group>, n: nat): seq<string>
    requires n <= |gs|
  {
    Uris(gs[..n])
  }

  /** Concatenation of group sequences concatenates their URIs. */
  lemma {:induction false} UrisAppend(a: seq<Group>, b: seq<Group>)
    ensures Uris(a + b) == Uris(a) + Uris(b)
    decreases |a|
  {
    if a == [] {
      assert a + b == b;
    } else {
      assert (a + b)[1..] == a[1..] + b;
      UrisAppend(a[1..], b);
    }
  }

  /** Taking one more group extends the URIs by that group. */
  lemma UrisPrefixStep(gs: seq<Group>, k: nat)
    requires k < |gs|
    ensures Uris(gs[..k + 1]) == Uris(gs[..k]) + gs[k]
  {
    assert gs[..k + 1] == gs[..k] + [gs[k]];
    UrisAppend(gs[..k], [gs[k]]);
    assert Uris([gs[k]]) == gs[k] + Uris([]);
  }

  /** A non-empty prefix starts with the first group. */
  lemma UrisPrefixHead(gs: seq<Group>, k: nat)
    requires 0 < k <= |gs|
    ensures Uris(gs[..k]) == gs[0] + Uris(gs[1..][..k - 1])
  {
    assert gs[..k][1..] == gs[1..][..k - 1];
  }

  /** Each group contributes at least one URI. */
  lemma {:induction false} UrisAtLeastGroups(gs: seq<Group>)
    ensures |Uris(gs)| >= |gs|
    ensures |Uris(gs)| == |gs| <==> forall i :: 0 <= i < |gs| ==> |gs[i]| == 1
    decreases |gs|
  {
    if gs != [] {
      UrisAtLeastGroups(gs[1..]);
      if |Uris(gs)| == |gs| {
        forall i | 0 <= i < |gs|
          ensures |gs[i]| == 1
        {
          if i > 0 {
            assert gs[i] == gs[1..][i - 1];
          }
        }
      }
      if forall i :: 0 <= i < |gs| ==> |gs[i]| == 1 {
        assert |gs[0]| == 1;
        assert forall i :: 0 <= i < |gs[1..]| ==> |gs[1..][i]| == 1 by {
          forall i | 0 <= i < |gs[1..]|
            ensures |gs[1..][i]| == 1
          {
            assert gs[1..][i] == gs[i + 1];
          }
        }
      }
    }
  }
}

=== FILE: wrappers.dfy ===
/** The optional value used for `std::optional` in the modelled code. */
module Wrappers {

  datatype Option<+T> = None | Some(value: T)
}
